=== FILE: README.md ===
# Solar power forecast endpoint, modelled in Dafny

This project models the `POST /forecast` handler of a small Flask service
(`forecast()` in `app.py`). The handler takes a historical
generation series and a weather (irradiation) series and returns a
multi-step power forecast. It does four things, and the model keeps the
handler's order and edge cases for each:

1. A **validation cascade**. The handler first checks for a loaded model,
   then for a truthy JSON body. It then converts the horizon, requires two
   non-empty series, builds the two tables, checks generation's columns
   before weather's, and converts the timestamps.
2. An **inner merge on exact timestamp equality**. For each generation row
   in order, the merge takes each weather row with an equal timestamp. An
   empty merge is refused with 400.
3. A **recursive forecast loop**. It runs one step per hour after the
   latest merged instant (`last_time`). Each prediction is fed back as the
   next step's `DC_POWER`. Irradiation is looked up in the weather table,
   and when no row matches it falls back to the last merged row's value
   (`last_row`).
4. **Calendar features**. `hour` and `dayofweek` come from each step's own
   instant.

How the model abstracts the system:

- Power and irradiation values are a type parameter `V`, because nothing
  computes on them.
- The trained model is a function `Features<V> -> Option<V>`. `None`
  means `predict` raised.
- The load-once handle is an `Option` of that function.
- `nan` is a parameter: the value pandas puts in a cell whose record has
  no `value` key.
- Instants are whole seconds since 1970-01-01T00:00:00, a Thursday.
  Hence `hour = (s / 3600) % 24` and `dayofweek = (s / 86400 + 3) % 7`,
  with floor division as pandas uses for instants before 1970.
- `NaT` is pandas' missing instant. A record without a `timestamp` key
  (when another record has one) becomes `NaT`. pandas' merge matches
  missing keys with each other. `NaT` equals nothing in the weather
  lookup. `NaT` plus an hour is `NaT`, but `timedelta(hours=n)` itself
  raises once n reaches 24·10⁹ (a billion days), whatever the instant. The
  calendar fields of `NaT` are NaN, written `None`.
- A timestamp that is JSON null, or a text `to_datetime` reads as NaT
  (`""`, `"NaT"`, `"nan"`), is `NullTime`.
- pandas (version 2.2 or later, nanosecond resolution) holds instants as
  signed 64-bit nanosecond counts. Whole seconds outside ±9223372036 make
  `to_datetime` raise. Adding a delta to an instant converts the delta to
  nanoseconds too, so a delta beyond 2562047 hours raises even when the
  sum would be in range, and so does a step instant beyond that range.
  These raises fall into the catch-all and give 500.

Modules: `Request` (request and refusal shapes, `int()` of the horizon),
`Clock` (instants and calendar fields), `Frames` (tables, merge, latest
instant, weather lookup), `Forecaster` (the loop and its declarative
specification), `Endpoint` (the cascade and the whole handler).

Behaviour of the code worth noting:

- A model that failed to load gives 500 "Model not loaded", the same
  status as the catch-all.
- A horizon of zero or less is accepted and yields an empty forecast.
- The loop's seed powers come from the last merged row in merge order,
  which need not be the row with the latest instant (`SeedMixesRows`).
- "Missing `timestamp`/`value`" is a column check: it fails only when no
  record of the series has the key.

## Model

| member | source | states |
|---|---|---|
| Request.TruncateToInt | app.py:30 | `int()` of a float horizon truncates toward zero: the result is the integer within distance one of x on the side of zero |
| Request.HorizonValue | app.py:30 | the horizon conversion fails exactly on a value `int()` rejects; an absent key gives 24, an integer is kept, a float is truncated toward zero |
| Clock.HourOf | app.py:78 | the hour feature always lies in 0..23 |
| Clock.DayOfWeekOf | app.py:79 | the weekday feature always lies in 0..6 |
| Clock.CalendarOfCivilTime | app.py:78-79 | an instant made of day d, hour h and second s has hour h and the weekday of day d (1970-01-01 a Thursday) |
| Clock.Advance | app.py:69 | `last_time + timedelta(hours=n)` succeeds exactly when the delta stays within a billion days and, for a real instant, the delta's nanosecond count (at most 2562047 hours) and the sum stay in pandas' range; it then lies n hours later (NaT stays NaT); an overflowing delta is its own failure |
| Clock.NextHourCalendar | app.py:69-79 | one hour later the hour advances by one mod 24, and the weekday advances exactly when the hour wraps to 0 |
| Frames.HasColumnsIff | app.py:38-45 | the table has both `timestamp` and `value` columns exactly when some record has a `timestamp` key and some record has a `value` key |
| Frames.ParseTime | app.py:47-48 | a cell fails to convert exactly when it is unparseable text or an instant outside pandas' range; it is NaT exactly when absent or null; a converted instant is the text's instant and in range |
| Frames.ToFrame | app.py:47-48 | timestamp conversion succeeds iff every cell parses within range; then one row per record, in order, absent timestamps as NaT and absent values as the missing value |
| Frames.MatchesOf | app.py:51 | one generation row yields no more merged rows than there are weather rows, each carrying that generation row's timestamp and value |
| Frames.MatchesOfEmptyIff | app.py:51 | a generation row yields no merged row exactly when no weather row shares its timestamp |
| Frames.JoinSize | app.py:51 | the merge has at most one row per generation/weather pair: no more rows than the product of the two table sizes |
| Frames.JoinSound | app.py:51 | every merged row is the row of a generation row and a weather row with equal timestamps, carries their two values, and sits at that pair's own position, so there are no extra or repeated rows |
| Frames.JoinComplete | app.py:51 | every generation/weather pair with equal timestamps contributes its row, at a position of its own |
| Frames.PairPositionOrdered | app.py:51 | merge order is generation order, then weather order; distinct pairs never share a row |
| Frames.JoinEmptyIff | app.py:51-53 | the merge is empty exactly when no timestamp occurs in both series |
| Frames.LastJoinedRow | app.py:63 | `last_row` is the row of the last generation row that has a partner, paired with its last partner |
| Frames.LastTimeInRange | app.py:47-62 | `last_time` is an instant of the converted generation table, so it lies in pandas' range |
| Frames.LastTime | app.py:62 | `last_time` is the latest non-NaT merged instant and is attained by some row; it is NaT exactly when every merged instant is NaT |
| Frames.Lookup | app.py:71-73 | the irradiation lookup finds a value iff some weather row lies at the (non-NaT) instant, and then returns the value of the first such row |
| Forecaster.SeedOf | app.py:62-66 | the loop starts at the latest non-NaT merged instant (NaT exactly when all are NaT) and from the DC_POWER and IRRADIATION of the last merged row |
| Forecaster.FeatureRow | app.py:77-82 | the features carry the fed DC_POWER and IRRADIATION unchanged; hour (0..23) and weekday (0..6) are present exactly when the step instant is not NaT |
| Forecaster.IrradiationAt | app.py:71-75 | the irradiation fed to a step is the value of the first weather row at its instant, or `last_row`'s IRRADIATION when there is none or the instant is NaT |
| Forecaster.StepAt | app.py:66-86 | in a run that meets the per-step specification from iteration k, step m lies k + m + 1 hours after `last_time` within pandas' range, and the model maps its features, fed the power of step m - 1 (the starting power for m = 0), to its power |
| Forecaster.ClosedFormIff | app.py:66-86 | the step-by-step reading of the loop and the per-index closed form (step m at last_time + (m + 1) h, fed step m - 1's power) hold of exactly the same step sequences |
| Forecaster.RunTotal | app.py:68-86 | with a model that always answers and a horizon whose last step's delta (within 2562047 hours for a real instant) and instant stay within range, the loop always succeeds |
| Forecaster.Run | app.py:68-86 | a successful loop from iteration k emits max(horizon - k, 0) steps, each following from the one before; failures are only the delta or the step instant leaving timedelta's or pandas' range, or a raising model |
| Forecaster.ForecastFrom | app.py:62-86 | a successful forecast has max(horizon, 0) steps and satisfies the per-step specification seeded at `last_time` and `last_row` |
| Forecaster.RunComplete | app.py:68-86 | any sequence of max(horizon, 0) steps meeting the per-step specification is exactly what the loop returns, so that specification determines the forecast |
| Forecaster.RunFailure | app.py:68-92 | when the loop fails, some iteration below the horizon raised after a valid run of the earlier ones, and nothing partial is returned |
| Forecaster.HourlyCadence | app.py:69 | consecutive steps lie exactly one hour apart, with no gaps |
| Forecaster.FedBack | app.py:66-86 | step 0 is fed `last_row`'s DC_POWER; step k > 0 is fed exactly the power emitted at step k - 1 |
| Forecaster.CalendarAdvances | app.py:69-79 | the hour fed to consecutive steps advances by one mod 24, and the weekday turns over exactly at midnight |
| Endpoint.Validate | app.py:26-48 | the cascade order, each refusal stated on the input: falsy body 400, non-object body 500, bad horizon 500 before the series check, an empty series 400 before the column checks, generation columns before weather columns, then timestamp conversion 500; a request is accepted exactly when it passes every check, and then both tables are the converted lists |
| Endpoint.Forecast | app.py:21-92 | no model gives 500 "Model not loaded" whatever the body; with a model, a validation refusal is passed on unchanged, "No matching timestamps" comes exactly from an empty merge, and any other 500 is a step raising after a non-empty merge; a success is the specified forecast of max(horizon, 0) steps; the 400/500 split and the fixed texts are `Request.Status` and `Request.Message` |
| Endpoint.ForecastOkIff | app.py:51-88 | a valid request succeeds with a given step sequence exactly when the merge is non-empty, there are max(horizon, 0) steps, and every step meets the closed form |
| Endpoint.ForecastRaises | app.py:68-92 | when a valid, overlapping request fails, a run of steps meeting the closed form was under way and the next iteration, below the horizon, raised; nothing partial is returned |
| Endpoint.ForecastTotal | app.py:21-92 | with a model that always answers and a horizon whose last step's delta and instant stay within range, a valid request succeeds exactly when some generation and weather rows share a timestamp |
| Endpoint.RefusalIgnoresModel | app.py:23-53 | every 400 answer is the same whichever model is loaded: no prediction precedes it |
| Endpoint.NoMatchIff | app.py:51-53 | a valid request is refused "No matching timestamps" exactly when no timestamp occurs in both series |
| Endpoint.DefaultHorizon | app.py:30 | without a `horizon` key, a forecast that succeeds has 24 steps |
| Endpoint.NonPositiveHorizon | app.py:68 | a horizon of zero or less gives an empty forecast, with no prediction and no instant computed |
| Endpoint.WorkedExample | app.py:62-86 | one reading each at 2024-01-01T00:00 and horizon 2: steps at 01:00 and 02:00, the first fed DC_POWER 100 and fallback IRRADIATION 0.5 with hour 1 and Monday, the second fed the first prediction |
| Endpoint.SeedMixesRows | app.py:62-63 | `last_time` and `last_row` can come from different merged rows |

## Left out

- Flask routing, the home page and its template (app.py:16-18), and JSON
  serialisation of the response (app.py:88): framework plumbing.
- Model loading with joblib (app.py:9-14): the handle is an `Option`
  parameter. The model's internals (app.py:84) are an uninterpreted
  function.
- `isoformat()` of step times and `float()` of predictions (app.py:85):
  output formatting and floating point. Steps carry the instant and the
  prediction as they are.
- The catch-all's message text and its console logging (app.py:90-92):
  every caught exception is `Internal(cause)` with status 500, and only the
  kind of exception is kept.
- `request.get_json()` raising, for example on a wrong content type or on
  malformed JSON in recent Flask versions: the body is modelled after
  decoding, so this path (500 through the catch-all) is not represented.
- Parsing of a string horizon by `int()`: a string `int()` accepts is
  supplied as `IntNumber`, and any other string as `NotIntegral`.
- DataFrame construction details (app.py:38-39): a truthy series that is
  not a list is `NotTabular` and raises. A dict of column lists, which
  pandas accepts, is supplied as the equivalent list of records.
- Lists whose elements are not all objects (app.py:38-39): every element
  is a record here. pandas raises when an object comes first and another
  value follows (500), and builds one unnamed column when a non-object
  comes first (400 "Generation data missing…"); neither list shape is
  modelled.
- `to_datetime` details (app.py:47-48): format inference across a column,
  time zones, sub-second precision and numeric epochs. Text is supplied
  already read: as whole seconds, as `NullTime` when pandas reads it as
  NaT, or as `Unparseable`.
- The `hour` and `dayofweek` columns added to the merged table
  (app.py:59-60): nothing reads them.
- Extra keys in records and the suffixes they would get in the merge
  (app.py:51, app.py:56): only `timestamp` and `value` are modelled.
- Merge order follows the left keys, as pandas documents for inner merges
  from version 2.2; older pandas versions may group equal keys differently.
- Idempotence of repeated requests: every member is a pure function, so
  equal inputs give equal outputs by construction.

=== FILE: clock.dfy ===
/** Instants as pandas holds them, and the calendar fields read from them.

    An instant is a whole number of seconds since 1970-01-01T00:00:00 (a
    Thursday); `NaT` is pandas' missing instant. pandas stores instants as
    signed 64-bit nanosecond counts, so only the seconds whose nanosecond
    count fits are representable.
 */
module Clock {
  import opened Request

  datatype Stamp = NaT | At(seconds: int)

  const SecondsPerHour: int := 3600
  const HoursPerDay: int := 24
  const SecondsPerDay: int := 86400
  const DaysPerWeek: int := 7

  /** Day of week of 1970-01-01, counting Monday as 0. */
  const EpochDayOfWeek: int := 3

  /** Whole seconds whose nanosecond count lies in pandas' range
      [-(2^63 - 1), 2^63 - 1]. */
  const MinSeconds: int := -9_223_372_036
  const MaxSeconds: int := 9_223_372_036

  predicate Representable(s: int) {
    MinSeconds <= s <= MaxSeconds
  }

  /** `timedelta(hours=n)` keeps its day count, floor(n / 24), within
      ±999999999 and raises otherwise: these are the hour counts it accepts. */
  const MinDeltaHours: int := -23_999_999_976
  const MaxDeltaHours: int := 23_999_999_999

  predicate DeltaRepresentable(n: int) {
    MinDeltaHours <= n <= MaxDeltaHours
  }

  /** Adding a delta to an instant converts it to a signed 64-bit nanosecond
      count first: floor((2^63 - 1) / (3600 * 10^9)) hours either way. */
  const MaxNanoDeltaHours: int := 2_562_047

  predicate NanoDeltaRepresentable(n: int) {
    -MaxNanoDeltaHours <= n <= MaxNanoDeltaHours
  }

  /** `Timestamp.hour`. Division rounds toward minus infinity, as pandas
      does for instants before 1970. */
  function HourOf(s: int): (h: int)
    ensures 0 <= h < HoursPerDay
  {
    (s / SecondsPerHour) % HoursPerDay
  }

  /** `Timestamp.dayofweek`, Monday = 0 … Sunday = 6. */
  function DayOfWeekOf(s: int): (d: int)
    ensures 0 <= d < DaysPerWeek
  {
    (s / SecondsPerDay + EpochDayOfWeek) % DaysPerWeek
  }

  /** `t + timedelta(hours=n)` before pandas' range check; NaT stays NaT. */
  function Shift(t: Stamp, n: int): Stamp {
    match t
    case NaT => NaT
    case At(s) => At(s + n * SecondsPerHour)
  }

  /** `t + timedelta(hours=n)`: the delta itself raises when it exceeds a
      billion days, even when t is NaT; adding it to an instant raises when
      its nanosecond count overflows or the sum leaves pandas' range. */
  function Advance(t: Stamp, n: int): (r: Result<Stamp>)
    ensures r.Ok? <==> && DeltaRepresentable(n)
                       && (t.At? ==> NanoDeltaRepresentable(n) && Representable(t.seconds + n * SecondsPerHour))
    ensures r.Ok? ==> r.value.At? == t.At?
    ensures r.Ok? && t.At? ==> r.value.seconds - t.seconds == n * SecondsPerHour
    ensures r.Err? ==> (r.error == Internal(DeltaOverflow) <==> !DeltaRepresentable(n))
    ensures r.Err? ==> r.error == Internal(DeltaOverflow) || r.error == Internal(TimeOutOfBounds)
  {
    if !DeltaRepresentable(n) then Err(Internal(DeltaOverflow))
    else
      match Shift(t, n)
      case NaT => Ok(NaT)
      case At(s) =>
        if NanoDeltaRepresentable(n) && Representable(s) then Ok(At(s)) else Err(Internal(TimeOutOfBounds))
  }

  /** Every delta up to `last` hours succeeds when `last` hours does: from a
      representable instant whose `last`-th hour is in range, or from NaT
      within timedelta's bound. */
  lemma AdvanceWithin(t: Stamp, n: int, last: int)
    requires 1 <= n <= last <= MaxDeltaHours
    requires t.At? ==> && Representable(t.seconds) && last <= MaxNanoDeltaHours
                       && t.seconds + last * SecondsPerHour <= MaxSeconds
    ensures Advance(t, n) == Ok(Shift(t, n))
  {
    if t.At? {
      assert n * 3600 <= last * 3600;
      assert Representable(t.seconds + n * SecondsPerHour);
    }
  }

  /** The calendar fields of an instant built from a day number, an hour of
      that day and a second of that hour are exactly that hour and the
      weekday of that day: the reference reading of HourOf and DayOfWeekOf. */
  lemma CalendarOfCivilTime(day: int, hour: int, second: int)
    requires 0 <= hour < HoursPerDay && 0 <= second < SecondsPerHour
    ensures HourOf(day * SecondsPerDay + hour * SecondsPerHour + second) == hour
    ensures DayOfWeekOf(day * SecondsPerDay + hour * SecondsPerHour + second)
            == (day + EpochDayOfWeek) % DaysPerWeek
  {
    var s := day * SecondsPerDay + hour * SecondsPerHour + second;
    assert s / SecondsPerHour == day * HoursPerDay + hour;
    assert (day * HoursPerDay + hour) % HoursPerDay == hour;
    assert s / SecondsPerDay == day;
  }

  /** Every instant has a civil decomposition, so CalendarOfCivilTime
      describes HourOf and DayOfWeekOf on all instants. */
  lemma CivilTimeOf(s: int) returns (day: int, hour: int, second: int)
    ensures 0 <= hour < HoursPerDay && 0 <= second < SecondsPerHour
    ensures s == day * SecondsPerDay + hour * SecondsPerHour + second
  {
    day := s / SecondsPerDay;
    var rest := s % SecondsPerDay;
    hour := rest / SecondsPerHour;
    second := rest % SecondsPerHour;
  }

  /** Within a day, one hour later is the next hour of the same day. */
  lemma NextHourSameDay(day: int, hour: int, second: int)
    requires 0 <= hour < HoursPerDay - 1 && 0 <= second < SecondsPerHour
    ensures var s := day * SecondsPerDay + hour * SecondsPerHour + second;
            && HourOf(s + SecondsPerHour) == HourOf(s) + 1
            && DayOfWeekOf(s + SecondsPerHour) == DayOfWeekOf(s)
  {
    CalendarOfCivilTime(day, hour, second);
    CalendarOfCivilTime(day, hour + 1, second);
    assert day * SecondsPerDay + hour * SecondsPerHour + second + SecondsPerHour
           == day * SecondsPerDay + (hour + 1) * SecondsPerHour + second;
  }

  /** One hour after the last hour of a day is hour 0 of the next day. */
  lemma NextHourNextDay(day: int, second: int)
    requires 0 <= second < SecondsPerHour
    ensures var s := day * SecondsPerDay + (HoursPerDay - 1) * SecondsPerHour + second;
            && HourOf(s + SecondsPerHour) == 0
            && DayOfWeekOf(s + SecondsPerHour) == (DayOfWeekOf(s) + 1) % DaysPerWeek
  {
    CalendarOfCivilTime(day, HoursPerDay - 1, second);
    CalendarOfCivilTime(day + 1, 0, second);
    assert day * SecondsPerDay + (HoursPerDay - 1) * SecondsPerHour + second + SecondsPerHour
           == (day + 1) * SecondsPerDay + 0 * SecondsPerHour + second;
    WeekdaySucc(day + EpochDayOfWeek);
  }

  /** The weekday after weekday n mod 7. */
  lemma WeekdaySucc(n: int)
    ensures (n + 1) % DaysPerWeek == (n % DaysPerWeek + 1) % DaysPerWeek
  {
    var q, r := n / 7, n % 7;
    assert n == 7 * q + r && 0 <= r < 7;
    if r < 6 {
      assert n + 1 == 7 * q + (r + 1);
    } else {
      assert n + 1 == 7 * (q + 1) + 0;
    }
  }

  /** One hour later the hour of day moves on by one, wrapping at midnight,
      and the weekday changes exactly when it wraps. */
  lemma NextHourCalendar(s: int)
    ensures HourOf(s + SecondsPerHour) == (HourOf(s) + 1) % HoursPerDay
    ensures DayOfWeekOf(s + SecondsPerHour)
            == if HourOf(s) == HoursPerDay - 1 then (DayOfWeekOf(s) + 1) % DaysPerWeek
               else DayOfWeekOf(s)
  {
    var day, hour, second := CivilTimeOf(s);
    CalendarOfCivilTime(day, hour, second);
    if hour == HoursPerDay - 1 {
      NextHourNextDay(day, second);
    } else {
      NextHourSameDay(day, hour, second);
    }
  }
}

=== FILE: endpoint.dfy ===
/** The POST /forecast handler: the model check, the validation cascade,
    the merge and the forecast loop, each refusal with its own status.
 */
module Endpoint {
  import opened Request
  import opened Clock
  import opened Frames
  import opened Forecaster

  /** A request that passed every check: the horizon as `int()` returned it
      and the two tables after timestamp conversion. */
  datatype Validated<+V> = Validated(horizon: int, generation: seq<Obs<V>>, weather: seq<Obs<V>>)

  /** Python truthiness of the decoded body. */
  predicate BodyTruthy<V>(body: Body<V>) {
    match body
    case NoJson => false
    case Scalar(truthy) => truthy
    case Object(p) => PayloadTruthy(p)
  }

  /** The request gets past the horizon and series checks with two
      non-empty lists of records. */
  predicate TwoLists<V>(body: Body<V>) {
    && body.Object? && body.payload.horizon != Some(NotIntegral)
    && NonEmptyRows(body.payload.generation) && NonEmptyRows(body.payload.weather)
  }

  function GenerationRecords<V>(body: Body<V>): seq<Record<V>>
    requires TwoLists(body)
  {
    body.payload.generation.value.rows
  }

  function WeatherRecords<V>(body: Body<V>): seq<Record<V>>
    requires TwoLists(body)
  {
    body.payload.weather.value.rows
  }

  /** A request is accepted exactly when it is an object, its horizon
      converts, both series are non-empty lists of records with both
      columns, and every timestamp converts. */
  predicate WellFormed<V>(body: Body<V>) {
    && TwoLists(body)
    && HasColumns(GenerationRecords(body)) && HasColumns(WeatherRecords(body))
    && TimesReadable(GenerationRecords(body)) && TimesReadable(WeatherRecords(body))
  }

  /** The checks before the merge, in the order the handler runs them: the body must be
      truthy, then an object; the horizon is converted; both series must be
      non-empty; the tables are built, generation first; generation's
      columns are checked before weather's; generation's timestamps are
      converted before weather's. Each refusal below is stated on the input
      alone, under the conditions that let the request reach its check. */
  function Validate<V>(body: Body<V>, nan: V): (r: Result<Validated<V>>)
    ensures !BodyTruthy(body) ==> r == Err(NoJsonReceived)
    ensures body.Scalar? && body.truthy ==> r == Err(Internal(BodyNotObject))
    ensures body.Object? && BodyTruthy(body) && body.payload.horizon == Some(NotIntegral)
            ==> r == Err(Internal(BadHorizon))
    ensures body.Object? && BodyTruthy(body) && body.payload.horizon != Some(NotIntegral)
            && (!SeriesTruthy(body.payload.generation) || !SeriesTruthy(body.payload.weather))
            ==> r == Err(SeriesRequired)
    ensures body.Object? && body.payload.horizon != Some(NotIntegral)
            && SeriesTruthy(body.payload.generation) && SeriesTruthy(body.payload.weather)
            && (body.payload.generation == Some(NotTabular) || body.payload.weather == Some(NotTabular))
            ==> r == Err(Internal(BadSeries))
    ensures TwoLists(body) ==> (r == Err(GenerationColumnsMissing) <==> !HasColumns(GenerationRecords(body)))
    ensures TwoLists(body) && HasColumns(GenerationRecords(body))
            ==> (r == Err(WeatherColumnsMissing) <==> !HasColumns(WeatherRecords(body)))
    ensures TwoLists(body) && HasColumns(GenerationRecords(body)) && HasColumns(WeatherRecords(body))
            ==> (r == Err(Internal(BadTimestamp))
                 <==> !TimesReadable(GenerationRecords(body)) || !TimesReadable(WeatherRecords(body)))
    ensures r.Ok? <==> WellFormed(body)
    ensures r.Ok? ==>
              && HorizonValue(body.payload.horizon) == Ok(r.value.horizon)
              && ToFrame(GenerationRecords(body), nan) == Ok(r.value.generation)
              && ToFrame(WeatherRecords(body), nan) == Ok(r.value.weather)
    ensures r.Err? ==> r.error != ModelNotLoaded && r.error != NoMatchingTimestamps
    ensures r.Err? && r.error.Internal? ==> r.error.cause in {BodyNotObject, BadHorizon, BadSeries, BadTimestamp}
  {
    match body
    case NoJson => Err(NoJsonReceived)
    case Scalar(truthy) => if truthy then Err(Internal(BodyNotObject)) else Err(NoJsonReceived)
    case Object(p) =>
      if !PayloadTruthy(p) then Err(NoJsonReceived)
      else
        var horizon :- HorizonValue(p.horizon);
        if !SeriesTruthy(p.generation) || !SeriesTruthy(p.weather) then Err(SeriesRequired)
        else if p.generation.value.NotTabular? || p.weather.value.NotTabular? then Err(Internal(BadSeries))
        else
          var gen, weather := p.generation.value.rows, p.weather.value.rows;
          if !HasColumns(gen) then Err(GenerationColumnsMissing)
          else if !HasColumns(weather) then Err(WeatherColumnsMissing)
          else
            var genFrame :- ToFrame(gen, nan);
            var weatherFrame :- ToFrame(weather, nan);
            Ok(Validated(horizon, genFrame, weatherFrame))
  }

  /** `forecast()`: the whole handler. `model` is the handle loaded at start-up,
      `None` when loading failed; `nan` is the value pandas puts in a cell
      whose record has no `value` key. */
  function Forecast<V>(model: Option<Predictor<V>>, body: Body<V>, nan: V): (r: Result<seq<Step<V>>>)
    ensures model.None? ==> r == Err(ModelNotLoaded)
    ensures model.Some? && Validate(body, nan).Err? ==> r == Err(Validate(body, nan).error)
    ensures model.Some? && Validate(body, nan).Ok? ==>
              var v := Validate(body, nan).value;
              (r == Err(NoMatchingTimestamps) <==> |Join(v.generation, v.weather)| == 0)
    ensures r.Ok? ==>
              && model.Some? && Validate(body, nan).Ok?
              && var v := Validate(body, nan).value;
                 var joined := Join(v.generation, v.weather);
                 && |joined| > 0
                 && |r.value| == Iterations(v.horizon)
                 && IsForecast(model.value, v.weather, SeedOf(joined), r.value)
    ensures r.Err? && Status(r.error) == 400 ==> model.Some? && (Validate(body, nan).Err? || r.error == NoMatchingTimestamps)
    ensures r.Err? && Status(r.error) == 500 && model.Some? ==>
              || (Validate(body, nan).Err? && r.error.cause in {BodyNotObject, BadHorizon, BadSeries, BadTimestamp})
              || (&& Validate(body, nan).Ok?
                  && |Join(Validate(body, nan).value.generation, Validate(body, nan).value.weather)| > 0
                  && r.error in {Internal(DeltaOverflow), Internal(TimeOutOfBounds), Internal(PredictFailed)})
  {
    if model.None? then Err(ModelNotLoaded)
    else
      var v :- Validate(body, nan);
      var joined := Join(v.generation, v.weather);
      if |joined| == 0 then Err(NoMatchingTimestamps)
      else ForecastFrom(model.value, v.weather, joined, v.horizon)
  }

  /** The answer to a valid request is exactly the forecast the closed form
      specifies: it succeeds with steps iff the merge is non-empty, there are
      max(horizon, 0) steps, and step m lies m + 1 hours after `last_time`
      and carries the model's answer when fed step m - 1's power (or
      `last_row`'s DC_POWER for m = 0). */
  lemma ForecastOkIff<V>(p: Predictor<V>, body: Body<V>, nan: V, steps: seq<Step<V>>)
    requires Validate(body, nan).Ok?
    ensures var v := Validate(body, nan).value;
            var joined := Join(v.generation, v.weather);
            Forecast(Some(p), body, nan) == Ok(steps)
            <==> && |joined| > 0
                 && |steps| == Iterations(v.horizon)
                 && ClosedForm(p, v.weather, SeedOf(joined), 0, SeedOf(joined).power, steps)
  {
    var v := Validate(body, nan).value;
    var joined := Join(v.generation, v.weather);
    if |joined| > 0 {
      var seed := SeedOf(joined);
      ClosedFormIff(p, v.weather, seed, 0, seed.power, steps);
      if |steps| == Iterations(v.horizon) && ClosedForm(p, v.weather, seed, 0, seed.power, steps) {
        RunComplete(p, v.weather, seed, v.horizon, 0, seed.power, steps);
      }
    }
  }

  /** A valid request with overlapping timestamps that the loop fails fails
      atomically: a run of done steps meeting the closed form was under way,
      iteration |done| < horizon raised, and nothing of it is returned. */
  lemma ForecastRaises<V>(p: Predictor<V>, body: Body<V>, nan: V) returns (done: seq<Step<V>>)
    requires Validate(body, nan).Ok?
    ensures var v := Validate(body, nan).value;
            var joined := Join(v.generation, v.weather);
            Forecast(Some(p), body, nan).Err? && |joined| > 0 ==>
              && |done| < v.horizon
              && ClosedForm(p, v.weather, SeedOf(joined), 0, SeedOf(joined).power, done)
              && StepFails(p, v.weather, SeedOf(joined), |done|, Fed(SeedOf(joined).power, done, |done|))
  {
    var v := Validate(body, nan).value;
    var joined := Join(v.generation, v.weather);
    done := [];
    if Forecast(Some(p), body, nan).Err? && |joined| > 0 {
      var seed := SeedOf(joined);
      done := RunFailure(p, v.weather, seed, v.horizon, 0, seed.power);
      ClosedFormIff(p, v.weather, seed, 0, seed.power, done);
    }
  }

  /** With a model that always answers and a horizon whose last step's delta
      and instant stay within pandas' range and timedelta's, a valid request
      succeeds exactly when some generation and weather rows share a
      timestamp. */
  lemma ForecastTotal<V>(p: Predictor<V>, body: Body<V>, nan: V)
    requires Validate(body, nan).Ok?
    requires forall f :: p(f).Some?
    requires Iterations(Validate(body, nan).value.horizon) <= MaxDeltaHours
    requires var v := Validate(body, nan).value;
             var t := LastTime(Join(v.generation, v.weather));
             t.At? ==> && Iterations(v.horizon) <= MaxNanoDeltaHours
                       && t.seconds + Iterations(v.horizon) * SecondsPerHour <= MaxSeconds
    ensures var v := Validate(body, nan).value;
            Forecast(Some(p), body, nan).Ok? <==> exists i, j :: Pairs(v.generation, v.weather, i, j)
  {
    var v := Validate(body, nan).value;
    var joined := Join(v.generation, v.weather);
    JoinEmptyIff(v.generation, v.weather);
    if |joined| > 0 {
      LastTimeInRange(v.generation, v.weather);
      var seed := SeedOf(joined);
      RunTotal(p, v.weather, seed, v.horizon, 0, seed.power);
    }
  }

  /** Every 400 answer is decided before the model is consulted: swapping
      the model for any other gives the same answer. */
  lemma RefusalIgnoresModel<V>(p: Predictor<V>, q: Predictor<V>, body: Body<V>, nan: V)
    requires Forecast(Some(p), body, nan).Err?
    requires Status(Forecast(Some(p), body, nan).error) == 400
    ensures Forecast(Some(q), body, nan) == Forecast(Some(p), body, nan)
  {
  }

  /** A valid request is refused with "No matching timestamps" exactly when
      no generation row shares its timestamp with a weather row. */
  lemma NoMatchIff<V>(p: Predictor<V>, body: Body<V>, nan: V)
    requires Validate(body, nan).Ok?
    ensures var v := Validate(body, nan).value;
            Forecast(Some(p), body, nan) == Err(NoMatchingTimestamps)
            <==> forall i, j :: !Pairs(v.generation, v.weather, i, j)
  {
    var v := Validate(body, nan).value;
    JoinEmptyIff(v.generation, v.weather);
  }

  /** Without a `horizon` key, a successful forecast has 24 steps. */
  lemma DefaultHorizon<V>(p: Predictor<V>, body: Body<V>, nan: V)
    requires body.Object? && body.payload.horizon.None?
    ensures Forecast(Some(p), body, nan).Ok? ==> |Forecast(Some(p), body, nan).value| == 24
  {
  }

  /** A horizon of zero or less gives an empty forecast: the model is never
      consulted, and no step time is computed. */
  lemma NonPositiveHorizon<V>(p: Predictor<V>, body: Body<V>, nan: V)
    requires Validate(body, nan).Ok? && Validate(body, nan).value.horizon <= 0
    requires exists i, j :: Pairs(Validate(body, nan).value.generation, Validate(body, nan).value.weather, i, j)
    ensures Forecast(Some(p), body, nan) == Ok([])
  {
    var v := Validate(body, nan).value;
    JoinEmptyIff(v.generation, v.weather);
  }

  /** A small request: one generation reading of 100 and
      one irradiation reading of 0.5, both at 2024-01-01T00:00:00 (a Monday,
      1704067200 seconds after the epoch), and a horizon of 2. */
  function ExampleBody(): Body<real> {
    var t0 := Some(Iso(1_704_067_200));
    Object(Payload(
      Some(IntNumber(2)),
      Some(Rows([Record(t0, Some(100.0))])),
      Some(Rows([Record(t0, Some(0.5))])),
      false))
  }

  /** On this request any model that answers yields two steps, at
      01:00 and 02:00; the first is fed DC_POWER 100 and, since no weather
      row lies at 01:00, the fallback IRRADIATION 0.5; the second is fed the
      first prediction. */
  lemma WorkedExample(predict: Predictor<real>, nan: real)
    requires forall f :: predict(f).Some?
    ensures var r := Forecast(Some(predict), ExampleBody(), nan);
            && r.Ok? && |r.value| == 2
            && r.value[0].timestamp == At(1_704_067_200 + 3600)
            && r.value[1].timestamp == At(1_704_067_200 + 7200)
            && predict(Features(Some(1), Some(0), 100.0, 0.5)) == Some(r.value[0].power)
            && predict(Features(Some(2), Some(0), r.value[0].power, 0.5)) == Some(r.value[1].power)
  {
    var t0 := 1_704_067_200;
    var gen := [Obs(At(t0), 100.0)];
    var weather := [Obs(At(t0), 0.5)];
    var genRows := [Record(Some(Iso(t0)), Some(100.0))];
    var weatherRows := [Record(Some(Iso(t0)), Some(0.5))];
    assert HasColumns(genRows) by {
      assert |genRows[1..]| == 0;
    }
    assert HasColumns(weatherRows) by {
      assert |weatherRows[1..]| == 0;
    }
    assert ParseTime(Some(Iso(t0))) == Some(At(t0));
    var genFrame, weatherFrame := ToFrame(genRows, nan), ToFrame(weatherRows, nan);
    assert genFrame.Ok? && genFrame.value[0] == gen[0];
    assert weatherFrame.Ok? && weatherFrame.value[0] == weather[0];
    assert |genFrame.value| == 1 && |weatherFrame.value| == 1;
    assert genFrame.value == gen && weatherFrame.value == weather;
    assert Validate(ExampleBody(), nan) == Ok(Validated(2, gen, weather));
    var joined := Join(gen, weather);
    assert MatchesOf(gen[0], weather) == [Row(At(t0), 100.0, 0.5)] by {
      assert weather[1..] == [];
    }
    assert joined == [Row(At(t0), 100.0, 0.5)] by {
      assert |gen[1..]| == 0;
      assert Join(gen[1..], weather) == [];
    }
    var seed := SeedOf(joined);
    assert seed == Seed(At(t0), 100.0, 0.5);
    CalendarOfCivilTime(19723, 1, 0);
    CalendarOfCivilTime(19723, 2, 0);
    assert Lookup(weather, At(t0 + 3600)) == None;
    assert Lookup(weather, At(t0 + 7200)) == None;
    var f1 := Features(Some(1), Some(0), 100.0, 0.5);
    assert FeatureRow(At(t0 + 3600), 100.0, IrradiationAt(weather, At(t0 + 3600), 0.5)) == f1;
    var s1 := Step(At(t0 + 3600), predict(f1).value);
    var f2 := Features(Some(2), Some(0), s1.power, 0.5);
    assert FeatureRow(At(t0 + 7200), s1.power, IrradiationAt(weather, At(t0 + 7200), 0.5)) == f2;
    var s2 := Step(At(t0 + 7200), predict(f2).value);
    var steps := [s1, s2];
    assert StepFollows(predict, weather, seed, 0, seed.power, s1);
    assert StepFollows(predict, weather, seed, 1, s1.power, s2);
    assert steps[0] == s1 && steps[1..] == [s2] && [s2][1..] == [];
    assert FollowsFrom(predict, weather, seed, 0, seed.power, steps);
    RunComplete(predict, weather, seed, 2, 0, seed.power, steps);
  }

  /** `last_time` and `last_row` can come from different merged rows: here
      the later instant is merged first, so the loop starts at 02:00 of the
      epoch day but is fed the 01:00 readings. */
  lemma SeedMixesRows<V>(a: V, b: V, c: V, d: V)
    ensures var gen := [Obs(At(7200), a), Obs(At(3600), b)];
            var weather := [Obs(At(3600), c), Obs(At(7200), d)];
            var joined := Join(gen, weather);
            |joined| > 0 && SeedOf(joined) == Seed(At(7200), b, c)
  {
    var gen := [Obs(At(7200), a), Obs(At(3600), b)];
    var weather := [Obs(At(3600), c), Obs(At(7200), d)];
    var late := [Obs(At(7200), d)];
    assert weather[1..] == late && |late[1..]| == 0;
    assert MatchesOf(gen[0], late) == [Row(At(7200), a, d)];
    assert MatchesOf(gen[0], weather) == [Row(At(7200), a, d)];
    assert MatchesOf(gen[1], late) == [];
    assert MatchesOf(gen[1], weather) == [Row(At(3600), b, c)];
    assert |gen[1..][1..]| == 0;
    assert Join(gen[1..], weather) == [Row(At(3600), b, c)];
    var joined := Join(gen, weather);
    assert joined == [Row(At(7200), a, d), Row(At(3600), b, c)];
    var tail := joined[1..];
    assert tail == [Row(At(3600), b, c)];
    assert |tail[1..]| == 0;
    assert LastTime(joined) == At(7200);
  }
}

=== FILE: forecaster.dfy ===
/** The recursive forecast loop: one step per hour after the latest merged
    instant, each prediction fed back as the next step's DC_POWER.

    `Run` follows the loop iteration by iteration; `FollowsFrom` says
    declaratively what each step of a forecast must be. The lemmas show the
    two agree in both directions, and that a failing step leaves no partial
    forecast behind.
 */
module Forecaster {
  import opened Request
  import opened Clock
  import opened Frames

  /** The one-row feature table handed to the model. The calendar fields of
      NaT are NaN, written `None`. */
  datatype Features<+V> = Features(hour: Option<int>, dayofweek: Option<int>, dcPower: V, irradiation: V)

  /** One emitted forecast entry. */
  datatype Step<+V> = Step(timestamp: Stamp, power: V)

  /** `model.predict(features)[0]`; `None` when the model raises. */
  type Predictor<!V> = Features<V> -> Option<V>

  /** What the loop starts from: `last_time`, and the DC_POWER and
      IRRADIATION of `last_row`. */
  datatype Seed<+V> = Seed(time: Stamp, power: V, irradiation: V)

  /** `last_time` is the latest merged instant; `last_row` is the last merged
      row in merge order. The two need not belong to the same row. */
  function SeedOf<V>(joined: seq<Row<V>>): (seed: Seed<V>)
    requires |joined| > 0
    ensures seed.time.NaT? <==> forall k :: 0 <= k < |joined| ==> joined[k].timestamp.NaT?
    ensures seed.time.At? ==> forall k :: 0 <= k < |joined| && joined[k].timestamp.At? ==>
              joined[k].timestamp.seconds <= seed.time.seconds
    ensures seed.time.At? ==> exists k :: 0 <= k < |joined| && joined[k].timestamp == seed.time
    ensures seed.power == joined[|joined| - 1].dcPower && seed.irradiation == joined[|joined| - 1].irradiation
  {
    Seed(LastTime(joined), LastRow(joined).dcPower, LastRow(joined).irradiation)
  }

  /** The feature row for a step at instant t: its calendar fields come from
      t itself. */
  function FeatureRow<V>(t: Stamp, dcPower: V, irradiation: V): (f: Features<V>)
    ensures f.hour.Some? <==> t.At?
    ensures f.dayofweek.Some? <==> t.At?
    ensures f.hour.Some? ==> 0 <= f.hour.value < HoursPerDay
    ensures f.dayofweek.Some? ==> 0 <= f.dayofweek.value < DaysPerWeek
    ensures f.dcPower == dcPower && f.irradiation == irradiation
  {
    match t
    case NaT => Features(None, None, dcPower, irradiation)
    case At(s) => Features(Some(HourOf(s)), Some(DayOfWeekOf(s)), dcPower, irradiation)
  }

  /** The irradiation fed to a step at t: the value of the first weather row
      at t when there is one, and the fallback (`last_row`'s IRRADIATION)
      when there is none or t is NaT. */
  function IrradiationAt<V>(weather: seq<Obs<V>>, t: Stamp, fallback: V): (v: V)
    ensures forall j :: 0 <= j < |weather| && weather[j].timestamp == t && t.At?
                        && (forall j' :: 0 <= j' < j ==> weather[j'].timestamp != t)
                        ==> v == weather[j].value
    ensures (t.NaT? || forall j :: 0 <= j < |weather| ==> weather[j].timestamp != t) ==> v == fallback
  {
    match Lookup(weather, t)
    case Some(v) => v
    case None => fallback
  }

  /** Step s is what iteration k (0-based) emits when the previous DC_POWER
      is prev: the delta of k + 1 hours exists, the step sits that much after
      the seed instant, the delta's nanosecond count and the step instant
      lie within pandas' range, and its power is the model's answer on that
      instant's features. */
  ghost predicate StepFollows<V>(predict: Predictor<V>, weather: seq<Obs<V>>, seed: Seed<V>, k: nat, prev: V, s: Step<V>) {
    && DeltaRepresentable(k + 1)
    && s.timestamp == Shift(seed.time, k + 1)
    && (s.timestamp.At? ==> NanoDeltaRepresentable(k + 1) && Representable(s.timestamp.seconds))
    && predict(FeatureRow(s.timestamp, prev, IrradiationAt(weather, s.timestamp, seed.irradiation))) == Some(s.power)
  }

  /** Iteration k raises when the previous DC_POWER is prev: the delta of
      k + 1 hours overflows, its nanosecond count or its instant leaves
      pandas' range, or the model raises on its features. */
  ghost predicate StepFails<V>(predict: Predictor<V>, weather: seq<Obs<V>>, seed: Seed<V>, k: nat, prev: V) {
    var t := Shift(seed.time, k + 1);
    || !DeltaRepresentable(k + 1)
    || (t.At? && (!NanoDeltaRepresentable(k + 1) || !Representable(t.seconds)))
    || predict(FeatureRow(t, prev, IrradiationAt(weather, t, seed.irradiation))).None?
  }

  /** steps are the iterations k, k + 1, … of the loop, checked one by one:
      the first is fed prev and each later one the prediction before it. */
  ghost predicate FollowsFrom<V>(predict: Predictor<V>, weather: seq<Obs<V>>, seed: Seed<V>, k: nat, prev: V, steps: seq<Step<V>>)
    decreases |steps|
  {
    || |steps| == 0
    || (&& StepFollows(predict, weather, seed, k, prev, steps[0])
        && FollowsFrom(predict, weather, seed, k + 1, steps[0].power, steps[1..]))
  }

  /** steps are a forecast from the seed: step 0 is fed last_row's DC_POWER. */
  ghost predicate IsForecast<V>(predict: Predictor<V>, weather: seq<Obs<V>>, seed: Seed<V>, steps: seq<Step<V>>) {
    FollowsFrom(predict, weather, seed, 0, seed.power, steps)
  }

  /** `range(horizon)` runs max(horizon, 0) times. */
  function Iterations(horizon: int): nat {
    if horizon > 0 then horizon else 0
  }

  /** The DC_POWER fed to step m of a run whose first step is fed prev; for
      m = |steps|, the power fed to the step after the run. */
  function Fed<V>(prev: V, steps: seq<Step<V>>, m: nat): V
    requires m <= |steps|
  {
    if m == 0 then prev else steps[m - 1].power
  }

  /** Step m of a run from iteration k is iteration k + m, fed the power of
      step m - 1 (prev for m = 0). */
  ghost predicate StepOk<V>(predict: Predictor<V>, weather: seq<Obs<V>>, seed: Seed<V>, k: nat, prev: V, steps: seq<Step<V>>, m: nat)
    requires m < |steps|
  {
    StepFollows(predict, weather, seed, k + m, Fed(prev, steps, m), steps[m])
  }

  /** The closed form of a run: each step checked on its own index. */
  ghost predicate ClosedForm<V>(predict: Predictor<V>, weather: seq<Obs<V>>, seed: Seed<V>, k: nat, prev: V, steps: seq<Step<V>>) {
    forall m: nat :: m < |steps| ==> StepOk(predict, weather, seed, k, prev, steps, m)
  }

  /** The closed form of a checked run: step m is iteration k + m, fed the
      prediction of step m - 1 (or prev when m = 0). */
  lemma {:induction false} StepAt<V>(predict: Predictor<V>, weather: seq<Obs<V>>, seed: Seed<V>, k: nat, prev: V, steps: seq<Step<V>>, m: nat)
    requires FollowsFrom(predict, weather, seed, k, prev, steps)
    requires m < |steps|
    ensures StepOk(predict, weather, seed, k, prev, steps, m)
    decreases m
  {
    if m > 0 {
      var rest := steps[1..];
      StepAt(predict, weather, seed, k + 1, steps[0].power, rest, m - 1);
      assert rest[m - 1] == steps[m];
      assert Fed(steps[0].power, rest, m - 1) == Fed(prev, steps, m);
    }
  }

  /** Conversely, a run whose every step meets its closed form is a checked
      run. */
  lemma {:induction false} FollowsFromOfClosedForm<V>(predict: Predictor<V>, weather: seq<Obs<V>>, seed: Seed<V>, k: nat, prev: V, steps: seq<Step<V>>)
    requires ClosedForm(predict, weather, seed, k, prev, steps)
    ensures FollowsFrom(predict, weather, seed, k, prev, steps)
    decreases |steps|
  {
    if |steps| > 0 {
      assert StepOk(predict, weather, seed, k, prev, steps, 0);
      var rest, next, p := steps[1..], k + 1, steps[0].power;
      forall m: nat | m < |rest|
        ensures StepOk(predict, weather, seed, next, p, rest, m)
      {
        assert StepOk(predict, weather, seed, k, prev, steps, m + 1);
        assert rest[m] == steps[m + 1];
        assert Fed(p, rest, m) == Fed(prev, steps, m + 1);
      }
      FollowsFromOfClosedForm(predict, weather, seed, next, p, rest);
    }
  }

  /** The step-by-step and the closed-form readings of a run agree. */
  lemma ClosedFormIff<V>(predict: Predictor<V>, weather: seq<Obs<V>>, seed: Seed<V>, k: nat, prev: V, steps: seq<Step<V>>)
    ensures FollowsFrom(predict, weather, seed, k, prev, steps) <==> ClosedForm(predict, weather, seed, k, prev, steps)
  {
    if FollowsFrom(predict, weather, seed, k, prev, steps) {
      forall m: nat | m < |steps|
        ensures StepOk(predict, weather, seed, k, prev, steps, m)
      {
        StepAt(predict, weather, seed, k, prev, steps, m);
      }
    }
    if ClosedForm(predict, weather, seed, k, prev, steps) {
      FollowsFromOfClosedForm(predict, weather, seed, k, prev, steps);
    }
  }

  /** The `for i in range(horizon)` loop from iteration k on, the DC_POWER before
      iteration k being prev. */
  function Run<V>(predict: Predictor<V>, weather: seq<Obs<V>>, seed: Seed<V>, horizon: int, k: nat, prev: V): (r: Result<seq<Step<V>>>)
    decreases horizon - k
    ensures r.Ok? ==> |r.value| == Iterations(horizon - k)
    ensures r.Ok? ==> FollowsFrom(predict, weather, seed, k, prev, r.value)
    ensures r.Err? ==> r.error in {Internal(DeltaOverflow), Internal(TimeOutOfBounds), Internal(PredictFailed)}
  {
    if horizon <= k then Ok([])
    else
      var t :- Advance(seed.time, k + 1);
      match predict(FeatureRow(t, prev, IrradiationAt(weather, t, seed.irradiation)))
      case None => Err(Internal(PredictFailed))
      case Some(p) =>
        var rest :- Run(predict, weather, seed, horizon, k + 1, p);
        assert ([Step(t, p)] + rest)[1..] == rest;
        Ok([Step(t, p)] + rest)
  }

  /** The forecast made from a non-empty merged table: `last_time`,
      `last_row` and the loop. */
  function ForecastFrom<V>(predict: Predictor<V>, weather: seq<Obs<V>>, joined: seq<Row<V>>, horizon: int): (r: Result<seq<Step<V>>>)
    requires |joined| > 0
    ensures r.Ok? ==> |r.value| == Iterations(horizon)
    ensures r.Ok? ==> IsForecast(predict, weather, SeedOf(joined), r.value)
    ensures r.Err? ==> r.error in {Internal(DeltaOverflow), Internal(TimeOutOfBounds), Internal(PredictFailed)}
  {
    Run(predict, weather, SeedOf(joined), horizon, 0, SeedOf(joined).power)
  }

  /** The loop succeeds whenever the model always answers and every step
      instant stays in range: the seed instant is representable, and the
      last step's delta and instant lie within pandas' range and within
      timedelta's. */
  lemma {:induction false} RunTotal<V>(predict: Predictor<V>, weather: seq<Obs<V>>, seed: Seed<V>, horizon: int, k: nat, prev: V)
    requires forall f :: predict(f).Some?
    requires Iterations(horizon) <= MaxDeltaHours
    requires seed.time.At? ==> && Representable(seed.time.seconds)
                               && Iterations(horizon) <= MaxNanoDeltaHours
                               && seed.time.seconds + Iterations(horizon) * SecondsPerHour <= MaxSeconds
    ensures Run(predict, weather, seed, horizon, k, prev).Ok?
    decreases horizon - k
  {
    if k < horizon {
      var t := Shift(seed.time, k + 1);
      AdvanceWithin(seed.time, k + 1, Iterations(horizon));
      var f := FeatureRow(t, prev, IrradiationAt(weather, t, seed.irradiation));
      assert predict(f).Some?;
      RunTotal(predict, weather, seed, horizon, k + 1, predict(f).value);
    }
  }

  /** Completeness: whenever the right number of steps each follow from the
      one before, the loop succeeds and emits exactly them. With Run's own
      contract this makes the declarative forecast unique. */
  lemma {:induction false} RunComplete<V>(predict: Predictor<V>, weather: seq<Obs<V>>, seed: Seed<V>, horizon: int, k: nat, prev: V, steps: seq<Step<V>>)
    requires |steps| == Iterations(horizon - k)
    requires FollowsFrom(predict, weather, seed, k, prev, steps)
    ensures Run(predict, weather, seed, horizon, k, prev) == Ok(steps)
    decreases |steps|
  {
    if steps != [] {
      var s := steps[0];
      assert Advance(seed.time, k + 1) == Ok(s.timestamp);
      RunComplete(predict, weather, seed, horizon, k + 1, s.power, steps[1..]);
      assert steps == [s] + steps[1..];
    }
  }

  /** The power fed after a run is unchanged by putting one step in front. */
  lemma FedAfterCons<V>(prev: V, s: Step<V>, rest: seq<Step<V>>)
    ensures Fed(prev, [s] + rest, |rest| + 1) == Fed(s.power, rest, |rest|)
  {
    if |rest| > 0 {
      assert ([s] + rest)[|rest|] == rest[|rest| - 1];
    }
  }

  /** Atomicity: when the loop fails, a valid run of some k' - k steps was
      under way, the iteration k' < horizon raised, and none of those steps
      is returned. */
  lemma {:induction false} RunFailure<V>(predict: Predictor<V>, weather: seq<Obs<V>>, seed: Seed<V>, horizon: int, k: nat, prev: V)
    returns (done: seq<Step<V>>)
    requires Run(predict, weather, seed, horizon, k, prev).Err?
    ensures k + |done| < horizon
    ensures FollowsFrom(predict, weather, seed, k, prev, done)
    ensures StepFails(predict, weather, seed, k + |done|, Fed(prev, done, |done|))
    decreases horizon - k
  {
    assert k < horizon;
    var t := Shift(seed.time, k + 1);
    if !DeltaRepresentable(k + 1) || (t.At? && (!NanoDeltaRepresentable(k + 1) || !Representable(t.seconds))) {
      done := [];
    } else {
      assert Advance(seed.time, k + 1) == Ok(t);
      var f := FeatureRow(t, prev, IrradiationAt(weather, t, seed.irradiation));
      if predict(f).None? {
        done := [];
      } else {
        var p := predict(f).value;
        var rest := RunFailure(predict, weather, seed, horizon, k + 1, p);
        done := [Step(t, p)] + rest;
        assert done[1..] == rest;
        FedAfterCons(prev, Step(t, p), rest);
      }
    }
  }

  /** Steps run on an hourly cadence with no gaps: step k lies k + 1 hours
      after `last_time`, so each lies one hour after the one before. */
  lemma HourlyCadence<V>(predict: Predictor<V>, weather: seq<Obs<V>>, seed: Seed<V>, steps: seq<Step<V>>, k: int)
    requires IsForecast(predict, weather, seed, steps)
    requires seed.time.At? && 0 < k < |steps|
    ensures steps[k].timestamp.At? && steps[k - 1].timestamp.At?
    ensures steps[k].timestamp.seconds == steps[k - 1].timestamp.seconds + SecondsPerHour
  {
    StepAt(predict, weather, seed, 0, seed.power, steps, k);
    StepAt(predict, weather, seed, 0, seed.power, steps, k - 1);
  }

  /** The DC_POWER fed to step k > 0 is the power emitted at step k - 1;
      step 0 is fed last_row's DC_POWER. */
  lemma FedBack<V>(predict: Predictor<V>, weather: seq<Obs<V>>, seed: Seed<V>, steps: seq<Step<V>>, k: int)
    requires IsForecast(predict, weather, seed, steps)
    requires 0 <= k < |steps|
    ensures var t := steps[k].timestamp;
            predict(FeatureRow(t, if k == 0 then seed.power else steps[k - 1].power,
                               IrradiationAt(weather, t, seed.irradiation)))
            == Some(steps[k].power)
  {
    StepAt(predict, weather, seed, 0, seed.power, steps, k);
  }

  /** The hour and weekday fed to consecutive steps advance together: the
      hour moves on by one, and the weekday changes exactly at midnight. */
  lemma CalendarAdvances<V>(predict: Predictor<V>, weather: seq<Obs<V>>, seed: Seed<V>, steps: seq<Step<V>>, k: int)
    requires IsForecast(predict, weather, seed, steps)
    requires seed.time.At? && 0 < k < |steps|
    ensures steps[k - 1].timestamp.At? && steps[k].timestamp.At?
    ensures var before, after := steps[k - 1].timestamp.seconds, steps[k].timestamp.seconds;
            && HourOf(after) == (HourOf(before) + 1) % HoursPerDay
            && DayOfWeekOf(after)
               == if HourOf(before) == HoursPerDay - 1 then (DayOfWeekOf(before) + 1) % DaysPerWeek
                  else DayOfWeekOf(before)
  {
    HourlyCadence(predict, weather, seed, steps, k);
    NextHourCalendar(steps[k - 1].timestamp.seconds);
  }
}

=== FILE: frames.dfy ===
/** The two-column tables the handler builds from the request, the inner
    merge on timestamps, and the two reads the forecast loop makes of them:
    the latest joined instant and the weather value at an instant.
 */
module Frames {
  import opened Request
  import opened Clock

  /** One row of the generation or weather table after `to_datetime`. */
  datatype Obs<+V> = Obs(timestamp: Stamp, value: V)

  /** One row of the merged table: `DC_POWER` is the generation value and
      `IRRADIATION` the weather value of a pair with equal timestamps. */
  datatype Row<+V> = Row(timestamp: Stamp, dcPower: V, irradiation: V)

  /** The keys of one record that the handler reads. */
  function Keys<V>(r: Record<V>): set<string> {
    (if r.timestamp.Some? then {"timestamp"} else {}) + (if r.value.Some? then {"value"} else {})
  }

  /** `DataFrame(rows).columns`: the union of the records' keys. */
  function Columns<V>(rows: seq<Record<V>>): set<string> {
    if |rows| == 0 then {} else Keys(rows[0]) + Columns(rows[1..])
  }

  /** The table has both columns the handler needs. */
  predicate HasColumns<V>(rows: seq<Record<V>>) {
    "timestamp" in Columns(rows) && "value" in Columns(rows)
  }

  /** A key is a column exactly when some record carries it. */
  lemma {:induction false} ColumnsOf<V>(rows: seq<Record<V>>, key: string)
    ensures key in Columns(rows) <==> exists i :: 0 <= i < |rows| && key in Keys(rows[i])
  {
    if |rows| > 0 {
      ColumnsOf(rows[1..], key);
      assert forall i :: 1 <= i < |rows| ==> rows[1..][i - 1] == rows[i];
    }
  }

  /** The column check fails exactly when no record has a `timestamp` key,
      or no record has a `value` key: one record with each key is enough. */
  lemma HasColumnsIff<V>(rows: seq<Record<V>>)
    ensures HasColumns(rows) <==>
              && (exists i :: 0 <= i < |rows| && rows[i].timestamp.Some?)
              && (exists i :: 0 <= i < |rows| && rows[i].value.Some?)
  {
    ColumnsOf(rows, "timestamp");
    ColumnsOf(rows, "value");
  }

  /** `to_datetime` on one cell: an absent or null cell is NaT; `None` when
      it raises (unparseable text, or an instant outside pandas' range). */
  function ParseTime(f: Option<RawTime>): (r: Option<Stamp>)
    ensures r.None? <==> f == Some(Unparseable) || (f.Some? && f.value.Iso? && !Representable(f.value.seconds))
    ensures r == Some(NaT) <==> f.None? || f == Some(NullTime)
    ensures r.Some? && r.value.At? ==> f == Some(Iso(r.value.seconds)) && Representable(r.value.seconds)
  {
    match f
    case None => Some(NaT)
    case Some(NullTime) => Some(NaT)
    case Some(Iso(s)) => if Representable(s) then Some(At(s)) else None
    case Some(Unparseable) => None
  }

  /** A record without a `value` key holds the table's missing value. */
  function Cell<V>(f: Option<V>, nan: V): V {
    match f
    case None => nan
    case Some(v) => v
  }

  /** Every timestamp of the records converts. */
  predicate TimesReadable<V>(records: seq<Record<V>>) {
    forall i :: 0 <= i < |records| ==> ParseTime(records[i].timestamp).Some?
  }

  /** Every instant of a table lies in pandas' range. */
  predicate InRange<V>(frame: seq<Obs<V>>) {
    forall i :: 0 <= i < |frame| && frame[i].timestamp.At? ==> Representable(frame[i].timestamp.seconds)
  }

  /** The table of a series after its timestamp column is converted: one row
      per record, in order, or the failure of the first bad timestamp. */
  function ToFrame<V>(records: seq<Record<V>>, nan: V): (r: Result<seq<Obs<V>>>)
    ensures r.Ok? <==> TimesReadable(records)
    ensures r.Ok? ==> |r.value| == |records| && InRange(r.value)
    ensures r.Ok? ==> forall i :: 0 <= i < |records| ==>
              r.value[i] == Obs(ParseTime(records[i].timestamp).value, Cell(records[i].value, nan))
    ensures r.Err? ==> r.error == Internal(BadTimestamp)
  {
    if records == [] then Ok([])
    else
      match ParseTime(records[0].timestamp)
      case None => Err(Internal(BadTimestamp))
      case Some(t) =>
        var rest :- ToFrame(records[1..], nan);
        assert forall i :: 1 <= i < |records| ==> records[i] == records[1..][i - 1];
        Ok([Obs(t, Cell(records[0].value, nan))] + rest)
  }

  /** The merged rows one generation row contributes, in weather order.
      pandas matches missing keys with each other, so NaT pairs with NaT. */
  function MatchesOf<V>(g: Obs<V>, weather: seq<Obs<V>>): (r: seq<Row<V>>)
    ensures |r| <= |weather|
    ensures forall k :: 0 <= k < |r| ==> r[k].timestamp == g.timestamp && r[k].dcPower == g.value
  {
    if weather == [] then []
    else
      (if weather[0].timestamp == g.timestamp then [Row(g.timestamp, g.value, weather[0].value)] else [])
      + MatchesOf(g, weather[1..])
  }

  /** `pd.merge(gen, weather, on="timestamp", how="inner")`: for each
      generation row in order, each weather row with an equal timestamp. */
  function Join<V>(gen: seq<Obs<V>>, weather: seq<Obs<V>>): seq<Row<V>> {
    if gen == [] then [] else MatchesOf(gen[0], weather) + Join(gen[1..], weather)
  }

  /** Each pair yields at most one row, so the merge has at most
      |gen| * |weather| rows. */
  lemma {:induction false} JoinSize<V>(gen: seq<Obs<V>>, weather: seq<Obs<V>>)
    ensures |Join(gen, weather)| <= |gen| * |weather|
  {
    if gen != [] {
      JoinSize(gen[1..], weather);
      assert (|gen| - 1) * |weather| + |weather| == |gen| * |weather|;
    }
  }

  /** Generation row i and weather row j share a timestamp. */
  predicate Pairs<V>(gen: seq<Obs<V>>, weather: seq<Obs<V>>, i: int, j: int) {
    0 <= i < |gen| && 0 <= j < |weather| && gen[i].timestamp == weather[j].timestamp
  }

  /** The merged row a matching pair yields. */
  function RowOf<V>(gen: seq<Obs<V>>, weather: seq<Obs<V>>, i: int, j: int): Row<V>
    requires 0 <= i < |gen| && 0 <= j < |weather|
  {
    Row(gen[i].timestamp, gen[i].value, weather[j].value)
  }

  lemma {:induction false} MatchesOfAppend<V>(g: Obs<V>, w1: seq<Obs<V>>, w2: seq<Obs<V>>)
    ensures MatchesOf(g, w1 + w2) == MatchesOf(g, w1) + MatchesOf(g, w2)
  {
    if w1 == [] {
      assert w1 + w2 == w2;
    } else {
      assert (w1 + w2)[0] == w1[0];
      assert (w1 + w2)[1..] == w1[1..] + w2;
      MatchesOfAppend(g, w1[1..], w2);
    }
  }

  lemma {:induction false} JoinAppend<V>(g1: seq<Obs<V>>, g2: seq<Obs<V>>, weather: seq<Obs<V>>)
    ensures Join(g1 + g2, weather) == Join(g1, weather) + Join(g2, weather)
  {
    if g1 == [] {
      assert g1 + g2 == g2;
    } else {
      assert (g1 + g2)[0] == g1[0];
      assert (g1 + g2)[1..] == g1[1..] + g2;
      JoinAppend(g1[1..], g2, weather);
    }
  }

  /** Every row MatchesOf yields pairs the generation row with a weather row
      of equal timestamp. */
  lemma {:induction false} MatchesOfSound<V>(g: Obs<V>, weather: seq<Obs<V>>, k: int)
    requires 0 <= k < |MatchesOf(g, weather)|
    ensures exists j :: && 0 <= j < |weather| && weather[j].timestamp == g.timestamp
                        && k == |MatchesOf(g, weather[..j])|
                        && MatchesOf(g, weather)[k] == Row(g.timestamp, g.value, weather[j].value)
  {
    var head := if weather[0].timestamp == g.timestamp then [Row(g.timestamp, g.value, weather[0].value)] else [];
    if k < |head| {
      assert MatchesOf(g, weather)[k] == head[0];
      assert |weather[..0]| == 0;
    } else {
      var tail := weather[1..];
      assert MatchesOf(g, weather)[k] == MatchesOf(g, tail)[k - |head|];
      MatchesOfSound(g, tail, k - |head|);
      var j :| && 0 <= j < |tail| && tail[j].timestamp == g.timestamp
               && k - |head| == |MatchesOf(g, tail[..j])|
               && MatchesOf(g, tail)[k - |head|] == Row(g.timestamp, g.value, tail[j].value);
      assert weather[j + 1] == tail[j];
      var prefix := weather[..j + 1];
      assert prefix[0] == weather[0] && prefix[1..] == tail[..j];
      assert |MatchesOf(g, prefix)| == |head| + |MatchesOf(g, tail[..j])|;
    }
  }

  /** Soundness of the merge: every merged row is the row of a generation
      row and a weather row with equal timestamps, carrying their two values,
      and it sits at that pair's own position. With JoinComplete and
      PairPositionOrdered, the merged rows are the matching pairs, each
      exactly once, in (generation, weather) order. */
  lemma {:induction false} JoinSound<V>(gen: seq<Obs<V>>, weather: seq<Obs<V>>, k: int)
    requires 0 <= k < |Join(gen, weather)|
    ensures exists i, j :: && Pairs(gen, weather, i, j)
                           && k == PairPosition(gen, weather, i, j)
                           && Join(gen, weather)[k] == RowOf(gen, weather, i, j)
  {
    var head := MatchesOf(gen[0], weather);
    if k < |head| {
      assert Join(gen, weather)[k] == head[k];
      MatchesOfSound(gen[0], weather, k);
      var j :| && 0 <= j < |weather| && weather[j].timestamp == gen[0].timestamp
               && k == |MatchesOf(gen[0], weather[..j])|
               && head[k] == Row(gen[0].timestamp, gen[0].value, weather[j].value);
      assert |gen[..0]| == 0;
      assert Pairs(gen, weather, 0, j) && k == PairPosition(gen, weather, 0, j);
    } else {
      var tail := gen[1..];
      assert Join(gen, weather)[k] == Join(tail, weather)[k - |head|];
      JoinSound(tail, weather, k - |head|);
      var i, j :| && Pairs(tail, weather, i, j)
                  && k - |head| == PairPosition(tail, weather, i, j)
                  && Join(tail, weather)[k - |head|] == RowOf(tail, weather, i, j);
      assert tail[i] == gen[i + 1];
      var prefix := gen[..i + 1];
      assert prefix[0] == gen[0] && prefix[1..] == tail[..i];
      assert |Join(prefix, weather)| == |head| + |Join(tail[..i], weather)|;
      assert Pairs(gen, weather, i + 1, j) && k == PairPosition(gen, weather, i + 1, j);
    }
  }

  /** The rows of one generation row split around a partner j. */
  lemma MatchesAround<V>(g: Obs<V>, weather: seq<Obs<V>>, j: int)
    requires 0 <= j < |weather| && weather[j].timestamp == g.timestamp
    ensures MatchesOf(g, weather)
            == MatchesOf(g, weather[..j]) + [Row(g.timestamp, g.value, weather[j].value)]
               + MatchesOf(g, weather[j + 1..])
  {
    var wl, wr := weather[..j], weather[j + 1..];
    assert weather == wl + ([weather[j]] + wr);
    MatchesOfAppend(g, wl, [weather[j]] + wr);
    assert ([weather[j]] + wr)[1..] == wr;
  }

  /** The merged table split around generation row i. */
  lemma JoinAround<V>(gen: seq<Obs<V>>, weather: seq<Obs<V>>, i: int)
    requires 0 <= i < |gen|
    ensures Join(gen, weather)
            == Join(gen[..i], weather) + MatchesOf(gen[i], weather) + Join(gen[i + 1..], weather)
  {
    var pre, post := gen[..i], gen[i + 1..];
    var rest := gen[i..];
    assert gen == pre + rest;
    JoinAppend(pre, rest, weather);
    assert rest[0] == gen[i] && rest[1..] == post;
    assert Join(rest, weather) == MatchesOf(gen[i], weather) + Join(post, weather);
  }

  /** A generation row contributes no merged row exactly when no weather
      row shares its timestamp. */
  lemma {:induction false} MatchesOfEmptyIff<V>(g: Obs<V>, weather: seq<Obs<V>>)
    ensures |MatchesOf(g, weather)| == 0 <==> forall j :: 0 <= j < |weather| ==> weather[j].timestamp != g.timestamp
  {
    if weather != [] {
      MatchesOfEmptyIff(g, weather[1..]);
      assert forall j :: 1 <= j < |weather| ==> weather[1..][j - 1] == weather[j];
    }
  }

  /** Where the merge places the row of a matching pair (i, j): after the
      rows of all earlier generation rows, and after the rows generation row
      i forms with earlier weather rows. */
  function PairPosition<V>(gen: seq<Obs<V>>, weather: seq<Obs<V>>, i: int, j: int): int
    requires 0 <= i < |gen| && 0 <= j < |weather|
  {
    |Join(gen[..i], weather)| + |MatchesOf(gen[i], weather[..j])|
  }

  /** The row of partner j sits right after the rows of earlier partners. */
  lemma MatchesAt<V>(g: Obs<V>, weather: seq<Obs<V>>, j: int)
    requires 0 <= j < |weather| && weather[j].timestamp == g.timestamp
    ensures |MatchesOf(g, weather[..j])| < |MatchesOf(g, weather)|
    ensures MatchesOf(g, weather)[|MatchesOf(g, weather[..j])|] == Row(g.timestamp, g.value, weather[j].value)
  {
    MatchesAround(g, weather, j);
  }

  /** Completeness of the merge, with multiplicity: the row of every
      matching pair sits at its own position of the merged table. */
  lemma JoinComplete<V>(gen: seq<Obs<V>>, weather: seq<Obs<V>>, i: int, j: int)
    requires Pairs(gen, weather, i, j)
    ensures PairPosition(gen, weather, i, j) < |Join(gen, weather)|
    ensures Join(gen, weather)[PairPosition(gen, weather, i, j)] == RowOf(gen, weather, i, j)
  {
    var a := Join(gen[..i], weather);
    var m := MatchesOf(gen[i], weather);
    var d := Join(gen[i + 1..], weather);
    var b := MatchesOf(gen[i], weather[..j]);
    JoinAround(gen, weather, i);
    MatchesAt(gen[i], weather, j);
    assert (a + m + d)[|a| + |b|] == m[|b|];
  }

  /** The merge keeps generation order, then weather order: a pair earlier
      in that order has its row strictly earlier, so distinct pairs never
      share a row. */
  lemma PairPositionOrdered<V>(gen: seq<Obs<V>>, weather: seq<Obs<V>>, i: int, j: int, i': int, j': int)
    requires Pairs(gen, weather, i, j) && Pairs(gen, weather, i', j')
    requires i < i' || (i == i' && j < j')
    ensures PairPosition(gen, weather, i, j) < PairPosition(gen, weather, i', j')
  {
    if i < i' {
      var prefix := gen[..i'];
      assert prefix[..i] == gen[..i] && prefix[i] == gen[i];
      JoinAround(prefix, weather, i);
      MatchesAround(gen[i], weather, j);
    } else {
      var prefix := weather[..j'];
      assert prefix[..j] == weather[..j] && prefix[j] == weather[j];
      MatchesAround(gen[i], prefix, j);
    }
  }

  /** The merge is empty exactly when no generation row shares a timestamp
      with a weather row. */
  lemma JoinEmptyIff<V>(gen: seq<Obs<V>>, weather: seq<Obs<V>>)
    ensures Join(gen, weather) == [] <==> forall i, j :: !Pairs(gen, weather, i, j)
  {
    if Join(gen, weather) != [] {
      JoinSound(gen, weather, 0);
    }
    forall i, j | Pairs(gen, weather, i, j)
      ensures Join(gen, weather) != []
    {
      JoinComplete(gen, weather, i, j);
    }
  }

  /** `df.iloc[-1]`: the last merged row in merge order. */
  function LastRow<V>(rows: seq<Row<V>>): Row<V>
    requires rows != []
  {
    rows[|rows| - 1]
  }

  /** The last merged row is the row of the last pair in merge order: the
      last generation row that has a partner, with its last partner. */
  lemma LastJoinedRow<V>(gen: seq<Obs<V>>, weather: seq<Obs<V>>, i: int, j: int)
    requires Pairs(gen, weather, i, j)
    requires forall i', j' :: i < i' && Pairs(gen, weather, i', j') ==> false
    requires forall j' :: j < j' && Pairs(gen, weather, i, j') ==> false
    ensures Join(gen, weather) != []
    ensures LastRow(Join(gen, weather)) == RowOf(gen, weather, i, j)
  {
    JoinAround(gen, weather, i);
    MatchesAround(gen[i], weather, j);
    var post := gen[i + 1..];
    forall i', j' | 0 <= i' < |post| && 0 <= j' < |weather|
      ensures !Pairs(post, weather, i', j')
    {
      assert post[i'] == gen[i + 1 + i'];
      assert !Pairs(gen, weather, i + 1 + i', j');
    }
    JoinEmptyIff(post, weather);
    var wr := weather[j + 1..];
    forall j' | 0 <= j' < |wr|
      ensures wr[j'].timestamp != gen[i].timestamp
    {
      assert wr[j'] == weather[j + 1 + j'];
      assert !Pairs(gen, weather, i, j + 1 + j');
    }
    MatchesOfEmptyIff(gen[i], wr);
  }

  /** Every merged instant comes from the generation table, so when that
      table lies in pandas' range, so does `last_time`. */
  lemma LastTimeInRange<V>(gen: seq<Obs<V>>, weather: seq<Obs<V>>)
    requires InRange(gen)
    ensures LastTime(Join(gen, weather)).At? ==> Representable(LastTime(Join(gen, weather)).seconds)
  {
    var joined := Join(gen, weather);
    var t := LastTime(joined);
    if t.At? {
      var k :| 0 <= k < |joined| && joined[k].timestamp == t;
      JoinSound(gen, weather, k);
    }
  }

  /** `df["timestamp"].max()`: the latest instant among the merged rows,
      skipping NaT; NaT when every merged timestamp is NaT. */
  function LastTime<V>(rows: seq<Row<V>>): (t: Stamp)
    ensures t.NaT? <==> forall k :: 0 <= k < |rows| ==> rows[k].timestamp.NaT?
    ensures t.At? ==> exists k :: 0 <= k < |rows| && rows[k].timestamp == t
    ensures t.At? ==> forall k :: 0 <= k < |rows| && rows[k].timestamp.At? ==>
              rows[k].timestamp.seconds <= t.seconds
  {
    if rows == [] then NaT
    else
      var rest := LastTime(rows[1..]);
      assert forall k :: 1 <= k < |rows| ==> rows[k] == rows[1..][k - 1];
      match rows[0].timestamp
      case NaT => rest
      case At(s) => if rest.At? && rest.seconds >= s then rest else At(s)
  }

  /** `weather[weather["timestamp"] == t].iloc[0]["value"]`: the value of the
      first weather row at instant t; NaT equals nothing. */
  function Lookup<V>(weather: seq<Obs<V>>, t: Stamp): (r: Option<V>)
    ensures r.Some? <==> t.At? && exists j :: 0 <= j < |weather| && weather[j].timestamp == t
    ensures r.Some? ==> exists j :: (0 <= j < |weather| && weather[j].timestamp == t
              && r.value == weather[j].value
              && forall j' :: 0 <= j' < j ==> weather[j'].timestamp != t)
  {
    if weather == [] then None
    else if t.At? && weather[0].timestamp == t then Some(weather[0].value)
    else
      assert forall j :: 1 <= j < |weather| ==> weather[j] == weather[1..][j - 1];
      Lookup(weather[1..], t)
  }
}

=== FILE: request.dfy ===
/** Shapes of a POST /forecast request after JSON decoding, and of the
    endpoint's refusals.

    Only what the handler distinguishes is kept: whether the decoded body is
    an object, which keys it has, how `int()` treats the horizon, whether a
    series is a non-empty list of records, and per record whether the
    `timestamp` and `value` keys are present.
 */
module Request {

  datatype Option<+T> = None | Some(value: T)

  /** The reason a caught exception was raised. Its text is what the
      handler returns, so only the kind is modelled. */
  datatype Cause =
    | BodyNotObject    // `data.get` on a decoded body that is not an object
    | BadHorizon       // `int(horizon)` raised
    | BadSeries        // the DataFrame constructor rejected a series
    | BadTimestamp     // `to_datetime` could not read a timestamp
    | DeltaOverflow    // `timedelta(hours=…)` exceeded a billion days
    | TimeOutOfBounds  // the delta's nanosecond count or the step instant left pandas' range
    | PredictFailed    // the model raised while predicting a step

  /** Why the endpoint refused a request. */
  datatype Failure =
    | ModelNotLoaded
    | NoJsonReceived
    | SeriesRequired
    | GenerationColumnsMissing
    | WeatherColumnsMissing
    | NoMatchingTimestamps
    | Internal(cause: Cause)

  /** HTTP status of a refusal: the model check and the catch-all answer 500,
      every validation refusal answers 400. */
  function Status(f: Failure): int {
    if f.ModelNotLoaded? || f.Internal? then 500 else 400
  }

  /** The fixed message of a refusal; `None` for the catch-all, whose message
      is the exception's own text. */
  function Message(f: Failure): Option<string> {
    match f
    case ModelNotLoaded => Some("Model not loaded")
    case NoJsonReceived => Some("No JSON received")
    case SeriesRequired => Some("Both generation and weather data are required")
    case GenerationColumnsMissing => Some("Generation data missing 'timestamp' or 'value'")
    case WeatherColumnsMissing => Some("Weather data missing 'timestamp' or 'value'")
    case NoMatchingTimestamps => Some("No matching timestamps in generation and weather data")
    case Internal(_) => None
  }

  /** Either a value or the refusal that ended the request; usable with `:-`. */
  datatype Result<+T> = Ok(value: T) | Err(error: Failure) {

    predicate IsFailure() {
      Err?
    }

    function PropagateFailure<U>(): Result<U>
      requires Err?
    {
      Err(error)
    }

    function Extract(): T
      requires Ok?
    {
      value
    }
  }

  /** The `timestamp` field of one record as `to_datetime` reads it: JSON
      null or a text it reads as NaT ("", "NaT", "nan"), an ISO-8601 text
      naming the instant `seconds` seconds after 1970-01-01T00:00:00, or
      text it cannot parse. */
  datatype RawTime = NullTime | Iso(seconds: int) | Unparseable

  /** One element of the `generation` or `weather` list; `None` when the key
      is absent from that element. */
  datatype Record<+V> = Record(timestamp: Option<RawTime>, value: Option<V>)

  /** The value under the `generation` or `weather` key: a list of records,
      a falsy scalar (null, false, 0, ""), or a truthy value that the
      DataFrame constructor rejects. */
  datatype Series<+V> = Rows(rows: seq<Record<V>>) | FalsyScalar | NotTabular

  /** The value under the `horizon` key, as `int()` sees it. */
  datatype HorizonField = IntNumber(n: int) | RealNumber(x: real) | NotIntegral

  /** A decoded JSON object; `otherKeys` records whether it has keys besides
      the three the handler reads. */
  datatype Payload<+V> = Payload(
    horizon: Option<HorizonField>,
    generation: Option<Series<V>>,
    weather: Option<Series<V>>,
    otherKeys: bool)

  /** What `request.get_json()` returned: nothing, a JSON value that is not
      an object (with its Python truthiness), or an object. */
  datatype Body<+V> = NoJson | Scalar(truthy: bool) | Object(payload: Payload<V>)

  /** Python truthiness of a decoded object: it is truthy when it has a key. */
  predicate PayloadTruthy<V>(p: Payload<V>) {
    p.horizon.Some? || p.generation.Some? || p.weather.Some? || p.otherKeys
  }

  /** Python truthiness of the value `data.get(key, [])` returns. */
  predicate SeriesTruthy<V>(s: Option<Series<V>>) {
    match s
    case None => false
    case Some(Rows(rows)) => |rows| > 0
    case Some(FalsyScalar) => false
    case Some(NotTabular) => true
  }

  /** The series is a non-empty list of records. */
  predicate NonEmptyRows<V>(s: Option<Series<V>>) {
    s.Some? && s.value.Rows? && |s.value.rows| > 0
  }

  /** Python's `int()` on a float: truncation toward zero. */
  function TruncateToInt(x: real): (n: int)
    ensures 0.0 <= x ==> n as real <= x < n as real + 1.0
    ensures x < 0.0 ==> n as real - 1.0 < x <= n as real
  {
    if x >= 0.0 then x.Floor else -((-x).Floor)
  }

  /** `int(data.get("horizon", 24))`: 24 when the key is absent, an integer
      as it is, a float truncated toward zero; anything else raises. */
  function HorizonValue(h: Option<HorizonField>): (r: Result<int>)
    ensures r.Err? <==> h == Some(NotIntegral)
    ensures r.Err? ==> r.error == Internal(BadHorizon)
    ensures h.None? ==> r == Ok(24)
    ensures h.Some? && h.value.IntNumber? ==> r == Ok(h.value.n)
    ensures h.Some? && h.value.RealNumber? ==>
              && r.Ok?
              && (0.0 <= h.value.x ==> r.value as real <= h.value.x < r.value as real + 1.0)
              && (h.value.x < 0.0 ==> r.value as real - 1.0 < h.value.x <= r.value as real)
  {
    match h
    case None => Ok(24)
    case Some(IntNumber(n)) => Ok(n)
    case Some(RealNumber(x)) => Ok(TruncateToInt(x))
    case Some(NotIntegral) => Err(Internal(BadHorizon))
  }
}
